=== FILE: README.md ===
# Kanban card positions in Dafny

This project models the storage core of the kanban-03 desktop board. That core is
`src-tauri/src/database.rs` plus the record types of `src-tauri/src/main.rs`.

The board keeps three tables:

- `columns`: id and title.
- `cards`: id, title and optional description.
- `columns_cards`: one membership row per card, giving its column and its position in
  that column.

Every mutation runs in one transaction. The cards of a column are meant to sit at
positions 0 .. n-1, each position used once. This is called *density* below. The
mutations keep density only when their callers cooperate:

- Delete and move must name the card's real column and position. `delete_card` and
  `move_card` do not check this.
- An insert or move must target a slot 0 .. n of an existing column; a move within one
  column must target a slot 0 .. n-1. `insert_card_position` stores whatever position it is given
  (`database.rs:128-146`).

A delete or move naming the wrong column can break density; see "## Findings". Under these
conditions (`Invariant.CallerKeepsPromises`), the engine keeps density by renumbering
the column's tail:

- `insert_card` makes room by moving every card at or after the target one slot up.
- `delete_card` closes the gap by moving the cards after it one slot down.
- `move_card` deletes the card from its old slot, then inserts it at the new one.
- `update_card_positions` does the renumbering. It first reads the affected rows into
  memory, then rewrites each row once. The reader `get_columns` returns the board column
  by column, with the cards in position order.

The model uses immutable data throughout:

- The tables are Dafny maps. `columns_cards` is keyed by card id, so a card has at most
  one membership.
- Each mutation is a pure function from the store to `Result<Store, DbError>`. `Ok`
  carries the store the transaction commits. `Err` means the transaction rolled back and
  the store is unchanged (`Store.Commit`).
- `update_card_positions` is a method. Its loop walks the frozen row list.

Modules follow the source:

- `Types`: the `main.rs` records.
- `Store`: the tables and density.
- `Engine`: the `database.rs` mutations.
- `Reader`: `get_columns`.
- `App`: `get_board`.
- `Properties` and `Invariant`: what the mutations keep.
- `CheckedEngine`: the engine with checked delete and move, for the wrong-column problem described below.
- `Ordering`: a generic sort that stands for SQL `ORDER BY` and `BTreeMap` order.
- `Results`: `Option` and `Result`.

`delete_card` takes a `column_id` but never checks that the card is in that column. It
looks the card's position up by card id alone (`database.rs:109-113`), then closes the
gap in the named column (`database.rs:115`). `move_card` likewise trusts `from`
(`database.rs:100`). `Engine.DeleteCard` and `Engine.MoveCard` behave as the code does.
This model reads the intent as a delete or move that fails and writes nothing when the
card is not where the caller says. `CheckedEngine` models that reading, and "## Findings"
records the consequence of the code as written.

## Model

| member | source | states |
|---|---|---|
| Types.NewColumn | kanban-03/src-tauri/src/main.rs:24-30 | A new column has the given id and title and no cards. |
| Types.AddCard | kanban-03/src-tauri/src/main.rs:32-34 | Adding a card appends it after the existing cards. Id, title and earlier cards are unchanged. |
| Types.NewCard | kanban-03/src-tauri/src/main.rs:46-52 | A card stores id, title and description exactly as given. |
| Engine.OrderedByPosition | kanban-03/src-tauri/src/database.rs:169-172 | Lists exactly the given cards, each once, by ascending position. |
| Engine.SelectAffected | kanban-03/src-tauri/src/database.rs:169-185 | Yields exactly the memberships of the column at or after the start position, each once, with its current position, in ascending position order. |
| Engine.SelectsAffectedIds | kanban-03/src-tauri/src/database.rs:169-172 | The selected card ids are exactly the affected cards. |
| Engine.FetchAffected | kanban-03/src-tauri/src/database.rs:174-187 | The snapshot collected before any write holds every affected row once, with its original position. |
| Engine.UpdateCardPositions | kanban-03/src-tauri/src/database.rs:163-203 | Every affected row is rewritten exactly once, to `f` of its original position, and stays in its column. All other rows and the set of memberships are unchanged. The result equals the reference `Engine.Shift`. |
| Engine.InsertCardPosition | kanban-03/src-tauri/src/database.rs:128-146 | Succeeds exactly when the card has no membership; otherwise the error is a duplicate position. On success, the cards at or after the slot move up by one, the card is placed at the slot, and nothing else changes. |
| Engine.DeleteCardPosition | kanban-03/src-tauri/src/database.rs:148-161 | Removes the card's membership whatever its column. Each remaining row of the named column at or after the named position moves down by one. Other rows and tables are unchanged. |
| Engine.InsertCard | kanban-03/src-tauri/src/database.rs:72-91 | An existing `cards` row fails as a duplicate card. An existing membership fails as a duplicate position. Otherwise the card row is added and the card is placed at `pos`. Every card at or after `pos.position` in `pos.columnId` moves up one slot, and every other membership is unchanged. |
| Engine.MoveCard | kanban-03/src-tauri/src/database.rs:93-104 | Always commits. Leaves `cards` and `columns` alone and places the card at `to`. |
| Engine.DeleteCard | kanban-03/src-tauri/src/database.rs:106-125 | Fails, and so rolls back, exactly when the card has no membership. On success, the card's row and membership are gone and nothing else is removed. The gap is closed in the caller's `columnId`, from the position looked up by card id: every card there at or after that position moves down one slot, and every other membership is unchanged. |
| Reader.SelectJoined | kanban-03/src-tauri/src/database.rs:49-57 | Every row comes from a card that has both a `cards` row and a membership, and carries that content. Rows are in (column, position) order. |
| Reader.SelectJoinedIsComplete | kanban-03/src-tauri/src/database.rs:49-57 | Every card of the inner join has a row. |
| Reader.AppendCards | kanban-03/src-tauri/src/database.rs:59-66 | Succeeds exactly when every row names a loaded column. Otherwise it panics on a column that is not loaded. The set of columns never changes. |
| Reader.AppendCardsAppends | kanban-03/src-tauri/src/database.rs:59-66 | Each column keeps id and title and gains exactly its rows' cards, in row order, after the cards it had. |
| Reader.SortedKeys | kanban-03/src-tauri/src/database.rs:68 | The column ids, each once, ascending. |
| Reader.Collect | kanban-03/src-tauri/src/database.rs:68 | The k-th listed column is the map's entry for the k-th smallest key. |
| Reader.GetColumns | kanban-03/src-tauri/src/database.rs:38-69 | `get_columns` succeeds exactly when every joined card's column exists. Otherwise it fails with a panic naming a missing column. |
| Reader.GetColumnsListsColumns | kanban-03/src-tauri/src/database.rs:38-69 | On success, one column per `columns` row, in ascending id order, each with its title and with the cards its rows assign to it. |
| Reader.GetColumnsMissesNoColumn | kanban-03/src-tauri/src/database.rs:42-68 | On success, every stored column appears in the list. |
| Reader.ColumnCardsAreJoined | kanban-03/src-tauri/src/database.rs:49-66 | A column lists only joined cards whose membership names it, each with its `cards` content. |
| Reader.ColumnCardsInPositionOrder | kanban-03/src-tauri/src/database.rs:53-55 | A column lists its cards in ascending position. |
| Reader.ColumnCardsAreComplete | kanban-03/src-tauri/src/database.rs:49-66 | A column lists every joined card whose membership names it. |
| Properties.InsertCardPositionAddsMember | kanban-03/src-tauri/src/database.rs:128-146 | The column gains exactly the new card. |
| Properties.InsertCardPositionKeepsDistinct | kanban-03/src-tauri/src/database.rs:128-146 | Shifting up by one leaves the slot free, so no two cards of the column share a position. |
| Properties.InsertCardPositionKeepsOtherColumns | kanban-03/src-tauri/src/database.rs:128-146 | Other columns keep their cards and their density. |
| Properties.InsertCardPositionKeepsDense | kanban-03/src-tauri/src/database.rs:128-146 | Inserting into a dense column at slot 0 .. n keeps it dense, now with n + 1 cards. |
| Properties.DeleteCardPositionRemovesMember | kanban-03/src-tauri/src/database.rs:148-161 | The column loses exactly the deleted card. |
| Properties.DeleteCardPositionKeepsOrder | kanban-03/src-tauri/src/database.rs:148-161 | Deleting a card from its real slot keeps the relative order of the remaining cards, and keeps their positions distinct. |
| Properties.DeleteCardPositionStaysInRange | kanban-03/src-tauri/src/database.rs:148-161 | In a dense column, the remaining positions stay below n - 1. |
| Properties.DeleteCardPositionKeepsOtherColumns | kanban-03/src-tauri/src/database.rs:148-161 | Other columns keep their cards and their density. |
| Properties.DeleteCardPositionKeepsDense | kanban-03/src-tauri/src/database.rs:148-161 | Deleting a card from its real slot of a dense column keeps the column dense with one card fewer. |
| Properties.MoveWithinColumnKeepsDense | kanban-03/src-tauri/src/database.rs:93-104 | A move inside one column, to a slot 0 .. n-1, keeps the column dense. |
| Properties.MoveAcrossColumnsKeepsDense | kanban-03/src-tauri/src/database.rs:93-104 | A move to slot 0 .. n of another column keeps both columns dense. |
| Properties.MoveCardKeepsDense | kanban-03/src-tauri/src/database.rs:93-104 | A move from the card's real slot to a slot 0 .. n of the target column (0 .. n-1 within one column) keeps source and target dense. The card ends up at `to` and keeps exactly one membership. |
| Properties.MoveCardKeepsOtherColumns | kanban-03/src-tauri/src/database.rs:93-104 | A move leaves the `cards` table alone. In every third column it keeps the same members, keeps density, and leaves each card's slot unchanged. |
| Properties.MoveToSameSlotIsNoOp | kanban-03/src-tauri/src/database.rs:93-104 | Moving a card onto its own slot, when no other card shares that slot, returns the store unchanged. |
| Properties.InsertThenDeleteRestores | kanban-03/src-tauri/src/database.rs:72-125 | Inserting a fresh card anywhere and then deleting it from that column restores the exact store. Every other card returns to its old position. |
| Invariant.InsertKeepsWellFormed | kanban-03/src-tauri/src/database.rs:72-91 | An insert into an existing column at slot 0 .. n keeps the board consistent, whether it commits or rolls back. |
| Invariant.MoveKeepsWellFormed | kanban-03/src-tauri/src/database.rs:93-104 | A move from the card's real slot to a slot inside an existing column keeps the board consistent. |
| Invariant.DeleteKeepsWellFormed | kanban-03/src-tauri/src/database.rs:106-125 | A delete naming the card's real column keeps the board consistent. |
| Invariant.ApplyKeepsWellFormed | kanban-03/src-tauri/src/database.rs:72-125 | Any one mutation whose caller keeps its promises, committed or rolled back, keeps the board consistent. |
| Invariant.ReplayKeepsWellFormed | kanban-03/src-tauri/src/database.rs:72-125 | After any sequence of such mutations the board is consistent, and every column's positions are exactly 0 .. n-1. |
| App.GetBoard | kanban-03/src-tauri/src/main.rs:63-67 | `get_board` passes on the failure of `get_columns`, or wraps its columns in a board. |
| App.SortedDenseListIsSlots | kanban-03/src-tauri/src/database.rs:53-55 | A list of exactly a dense column's cards, sorted by position, has n entries, and its k-th card sits at position k. |
| App.ColumnListsSlotsInOrder | kanban-03/src-tauri/src/database.rs:49-66 | If the column is dense and every membership has a card row, the column's k-th listed card is the one stored at position k. No card is missing. |
| App.ConsistentBoardShowsSlots | kanban-03/src-tauri/src/main.rs:63-67 | For a consistent store, `get_board` succeeds. It lists every column once, by ascending id, with title. Each column lists its cards at positions 0 .. n-1 in order, with their `cards` content. |
| CheckedEngine.DeleteInWrongColumnBreaksDensity | kanban-03/src-tauri/src/database.rs:106-125 | On the two-column sample store (card 10 alone in column 1, cards 20 and 30 in column 2), deleting card 10 while naming column 2 commits card 20 at (2,-1), so the committed store is not consistent. |
| CheckedEngine.MoveFromWrongColumnBreaksDensity | kanban-03/src-tauri/src/database.rs:93-104 | On the same sample store, moving card 10 with `from` = (2,0) and `to` = (1,0) commits card 20 at (2,-1), so the committed store is not consistent. |
| CheckedEngine.DeleteCardInColumn | kanban-03/src-tauri/src/database.rs:106-125 | Corrected delete. It succeeds exactly when the card sits in the named column, and then does what `delete_card` does. A missing card fails as not found; a card in another column fails as not in that column. |
| CheckedEngine.MoveCardFrom | kanban-03/src-tauri/src/database.rs:93-104 | Corrected move. It succeeds exactly when the card sits at `from`, and then does what `move_card` does. |
| CheckedEngine.ExecuteCheckedKeepsWellFormed | kanban-03/src-tauri/src/database.rs:72-125 | With the corrected delete and move, one mutation keeps a consistent board consistent. The caller only promises the insert or move target; where the card currently sits is checked. |
| CheckedEngine.ReplayCheckedKeepsWellFormed | kanban-03/src-tauri/src/database.rs:72-125 | The same holds for any sequence of corrected mutations. |

## Left out

- Pool creation and migrations (`database.rs` lines 15-36): they only set up the SQLite file and have no board logic.
- The Tauri command handlers other than `get_board`, and `main`: they forward arguments and stringify errors.
- Transaction I/O failures are not modelled. This covers failing `begin`/`commit`/`execute`, driver errors and `try_get` type errors. Only failures decided by the data are modelled: duplicate ids, a missing membership, and the `unwrap` panic. Any failure rolls back (`Store.Commit`).
- Concurrency and the async streaming of rows: each transaction is applied as one step, and a query's rows are a sequence.
- Error messages: `map_err(|e| e.to_string())` is modelled as passing the `DbError` on unchanged. The `unwrap` panic in `get_columns` never reaches `map_err`: it unwinds through `get_board`, and the model represents it as the error value `Panicked`.
- Engine.InsertCardPosition: ids and positions are unbounded integers, so `i64` overflow of `pos + 1` or `pos - 1` is not modelled.
- Engine.SelectAffected: SQL leaves the order of rows on the same position open; the model lists them by card id. With distinct positions this order is never used.
- Reader.SelectJoined: likewise, ties on (column, position) are listed by card id.
- The `ORDER BY id` of the first `get_columns` query is not modelled: its rows go into a `BTreeMap`, whose order decides the result.
- `columns_cards` is modelled as keyed by card id: a card has at most one membership. A second membership for the same card is the failure `DuplicateCardPosition`. The schema file defining the real keys is not part of this model.
- Foreign keys and cascades between the tables are not modelled. A membership naming a missing column is allowed by the model. `get_columns` then panics if that card also has a `cards` row; otherwise the inner join drops the membership, as the code does.
- Engine.MoveCard: the contract states the card's new slot and the frame. How the other cards shift comes from `Engine.DeleteCardPosition` and `Engine.InsertCardPosition`, and `Properties` states it as density.

## Findings

| source | as written | input that shows it | evidently intended | confidence | as-written member | corrected member |
|---|---|---|---|---|---|---|
| kanban-03/src-tauri/src/database.rs:109-115 | `delete_card` looks the position up by card id only, then closes the gap in the caller's `column_id` | columns 1 and 2; card 10 at (1,0), cards 20 and 30 at (2,0) and (2,1); delete card 10 naming column 2: card 20 ends at (2,-1) and column 1 is never renumbered | read here as: the lookup is restricted to the named column, and a card not in it fails with not-found and writes nothing | medium, not executed | CheckedEngine.DeleteInWrongColumnBreaksDensity | CheckedEngine.DeleteCardInColumn |
| kanban-03/src-tauri/src/database.rs:99-101 | `move_card` deletes the membership by card id, then renumbers `from` as given, without checking the card sits there | same store; move card 10 with `from` = (2,0) and `to` = (1,0): card 20 ends at (2,-1) | read here as: a card not at `from` makes the move fail with no writes | medium, not executed | CheckedEngine.MoveFromWrongColumnBreaksDensity | CheckedEngine.MoveCardFrom |

=== FILE: app.dfy ===
/**
 The `get_board` command of kanban-03's `main.rs`, and what a consistent
 store looks like through it: every column lists its cards so that the k-th
 card is the one stored at position k.
 */
module App {
  import opened Results
  import opened Types
  import opened Store
  import opened Reader
  import opened Invariant

  /** `get_board`: the columns of `get_columns` wrapped in a board. A database
      error of `get_columns` is passed on (the source stringifies it); the
      `unwrap` panic on a missing column, which in the source unwinds through
      `get_board`, is modelled as the error `Panicked`. */
  function GetBoard(s: Store): (r: Result<Board, DbError>)
    ensures r.Ok? <==> GetColumns(s).Ok?
    ensures r.Err? ==> r.error == GetColumns(s).error
    ensures r.Ok? ==> r.value.columns == GetColumns(s).value
  {
    match GetColumns(s)
    case Err(e) => Err(e)
    case Ok(columns) => Ok(Board(columns))
  }

  /** The values a sequence takes. */
  ghost function Values(p: seq<int>): set<int> {
    set i | 0 <= i < |p| :: p[i]
  }

  /** A strictly increasing sequence of naturals is at least its index. */
  lemma {:induction false} AtLeastIndex(p: seq<int>, k: int)
    requires forall j, k :: 0 <= j < k < |p| ==> p[j] < p[k]
    requires forall k :: 0 <= k < |p| ==> 0 <= p[k]
    requires 0 <= k < |p|
    ensures k <= p[k]
    decreases k
  {
    if k > 0 {
      AtLeastIndex(p, k - 1);
    }
  }

  /** A strictly increasing sequence inside 0 .. n-1 that takes every value
      of 0 .. n-1 is 0, 1, ..., n-1: the rank of an entry is its value. */
  lemma {:induction false} RankIsValue(p: seq<int>, n: int, k: int)
    requires forall j, k :: 0 <= j < k < |p| ==> p[j] < p[k]
    requires forall k :: 0 <= k < |p| ==> 0 <= p[k] < n
    requires forall v :: 0 <= v < n ==> v in Values(p)
    requires 0 <= k < |p|
    ensures forall j :: 0 <= j <= k ==> p[j] == j
    decreases k
  {
    if k > 0 {
      RankIsValue(p, n, k - 1);
    }
    AtLeastIndex(p, k);
    assert k in Values(p);
    var i :| 0 <= i < |p| && p[i] == k;
  }

  /** ... and it has exactly n entries. */
  lemma CoveringLength(p: seq<int>, n: int)
    requires forall j, k :: 0 <= j < k < |p| ==> p[j] < p[k]
    requires forall k :: 0 <= k < |p| ==> 0 <= p[k] < n
    requires forall v :: 0 <= v < n ==> v in Values(p)
    ensures |p| == if n < 0 then 0 else n
    ensures forall k :: 0 <= k < |p| ==> p[k] == k
  {
    if |p| > 0 {
      RankIsValue(p, n, |p| - 1);
      assert p[|p| - 1] == |p| - 1 < n;
    }
    if n > 0 {
      assert n - 1 in Values(p);
      var i :| 0 <= i < |p| && p[i] == n - 1;
      assert i == n - 1;
    }
  }

  /** The ids of a list of cards. */
  ghost function IdsOf(cards: seq<Card>): set<int> {
    set k | 0 <= k < |cards| :: cards[k].id
  }

  /** The stored positions of a list of cards. */
  ghost function PositionsOf(m: map<int, Slot>, cards: seq<Card>): (p: seq<int>)
    requires forall k :: 0 <= k < |cards| ==> cards[k].id in m
    ensures |p| == |cards|
    ensures forall k :: 0 <= k < |cards| ==> p[k] == m[cards[k].id].position
  {
    if cards == [] then [] else [m[cards[0].id].position] + PositionsOf(m, cards[1..])
  }

  /** A list holding exactly the cards of a dense column, sorted by
      position (ties by id), lists them slot by slot. */
  lemma SortedDenseListIsSlots(m: map<int, Slot>, c: int, cards: seq<Card>)
    requires Dense(m, c)
    requires forall k :: 0 <= k < |cards| ==> cards[k].id in m && m[cards[k].id].columnId == c
    requires forall j, k :: 0 <= j < k < |cards| ==> ByColumnPosition(m, cards[j].id, cards[k].id)
    requires Members(m, c) <= IdsOf(cards)
    ensures |cards| == |Members(m, c)|
    ensures forall k :: 0 <= k < |cards| ==> m[cards[k].id] == Slot(c, k)
  {
    var n := |Members(m, c)|;
    var p := PositionsOf(m, cards);
    forall j, k | 0 <= j < k < |p|
      ensures p[j] < p[k]
    {
      assert ByColumnPosition(m, cards[j].id, cards[k].id);
    }
    forall v | 0 <= v < n
      ensures v in Values(p)
    {
      var id := SlotHolder(m, c, v);
      assert id in IdsOf(cards);
      var i :| 0 <= i < |cards| && cards[i].id == id;
      assert p[i] == v;
    }
    CoveringLength(p, n);
    forall k | 0 <= k < |cards|
      ensures m[cards[k].id] == Slot(c, k)
    {
      assert p[k] == k;
    }
  }

  /** `get_columns` lists the cards of a dense column `c` so that the k-th
      card is the one stored at position k, and lists them all, provided
      every membership has its `cards` row. */
  lemma ColumnListsSlotsInOrder(s: Store, c: int)
    requires Dense(s.columnsCards, c)
    requires s.columnsCards.Keys <= s.cards.Keys
    ensures var cards := CardsIn(SelectJoined(s), c);
      && |cards| == |Members(s.columnsCards, c)|
      && forall k :: 0 <= k < |cards| ==>
           cards[k].id in s.columnsCards && s.columnsCards[cards[k].id] == Slot(c, k)
  {
    var cards := CardsIn(SelectJoined(s), c);
    ColumnCardsAreJoined(s, c);
    ColumnCardsInPositionOrder(s, c);
    forall id | id in Members(s.columnsCards, c)
      ensures id in IdsOf(cards)
    {
      assert id in Joined(s);
      var k := ColumnCardsAreComplete(s, c, id);
    }
    SortedDenseListIsSlots(s.columnsCards, c, cards);
  }

  /** The board a consistent store shows: `get_board` succeeds, lists every
      column once in ascending id order, and each column lists its cards
      slot by slot, 0 to n-1, with the content of their `cards` rows. */
  lemma ConsistentBoardShowsSlots(s: Store)
    requires WellFormed(s)
    ensures GetBoard(s).Ok?
    ensures var cols := GetBoard(s).value.columns;
      && |cols| == |s.columns|
      && (forall i, j :: 0 <= i < j < |cols| ==> cols[i].id < cols[j].id)
      && forall i :: 0 <= i < |cols| ==>
           && cols[i].id in s.columns
           && cols[i].title == s.columns[cols[i].id]
           && |cols[i].cards| == |Members(s.columnsCards, cols[i].id)|
           && forall k :: 0 <= k < |cols[i].cards| ==>
                var card := cols[i].cards[k];
                && card.id in s.columnsCards && card.id in s.cards
                && s.columnsCards[card.id] == Slot(cols[i].id, k)
                && card == NewCard(card.id, s.cards[card.id].title, s.cards[card.id].description)
  {
    GetColumnsListsColumns(s);
    var cols := GetBoard(s).value.columns;
    forall i | 0 <= i < |cols|
      ensures |cols[i].cards| == |Members(s.columnsCards, cols[i].id)|
      ensures forall k :: 0 <= k < |cols[i].cards| ==>
                var card := cols[i].cards[k];
                && card.id in s.columnsCards && card.id in s.cards
                && s.columnsCards[card.id] == Slot(cols[i].id, k)
                && card == NewCard(card.id, s.cards[card.id].title, s.cards[card.id].description)
    {
      ColumnListsSlotsInOrder(s, cols[i].id);
      ColumnCardsAreJoined(s, cols[i].id);
    }
  }
}

=== FILE: checked_engine.dfy ===
/**
 `delete_card` and `move_card` trust the column (and position) their caller
 names: the membership is deleted by card id alone and the gap is then closed
 wherever the caller says it was. A caller naming the wrong place can leave
 a column with a gap, a duplicate, or a card at position -1. This module
 exhibits one such store and gives the checked versions. They fail without
 writing anything when the card is not where the caller says, and they keep
 a consistent store consistent with no promise about the card's current place.
 */
module CheckedEngine {
  import opened Results
  import opened Types
  import opened Store
  import opened Engine
  import opened Invariant

  /** Two columns: card 10 alone in column 1, cards 20 and 30 in column 2. */
  function Sample(): Store {
    Store(
      map[1 := "todo", 2 := "done"],
      map[10 := CardRow("a", None), 20 := CardRow("b", None), 30 := CardRow("c", None)],
      map[10 := Slot(1, 0), 20 := Slot(2, 0), 30 := Slot(2, 1)])
  }

  lemma SampleIsWellFormed()
    ensures WellFormed(Sample())
  {
    var m := Sample().columnsCards;
    assert Members(m, 1) == {10};
    assert Members(m, 2) == {20, 30};
    forall c | c in Sample().columns
      ensures Dense(m, c)
    {
    }
  }

  /** The code as written, on the sample store: deleting card 10 while naming
      column 2 succeeds and moves card 20 to position -1. */
  lemma DeleteInWrongColumnBreaksDensity()
    ensures WellFormed(Sample())
    ensures DeleteCard(Sample(), NewCard(10, "a", None), 2).Ok?
    ensures var r := DeleteCard(Sample(), NewCard(10, "a", None), 2).value;
      && r.columnsCards[20] == Slot(2, -1)
      && !WellFormed(r)
  {
    SampleIsWellFormed();
    var r := DeleteCard(Sample(), NewCard(10, "a", None), 2).value;
    assert r.columnsCards[20] == Slot(2, -1);
    assert !Dense(r.columnsCards, 2);
  }

  /** Likewise, on the sample store, a move whose `from` names the wrong column. */
  lemma MoveFromWrongColumnBreaksDensity()
    ensures WellFormed(Sample())
    ensures var r := MoveCard(Sample(), NewCard(10, "a", None), CardPos(2, 0), CardPos(1, 0)).value;
      && r.columnsCards[20] == Slot(2, -1)
      && !WellFormed(r)
  {
    SampleIsWellFormed();
    var r := MoveCard(Sample(), NewCard(10, "a", None), CardPos(2, 0), CardPos(1, 0)).value;
    assert r.columnsCards[20] == Slot(2, -1);
    assert !Dense(r.columnsCards, 2);
  }

  /** `delete_card` with the lookup restricted to the named column: a card
      with no membership fails as before; a card sitting in another column
      fails with `NotInColumn`. */
  function DeleteCardInColumn(s: Store, card: Card, columnId: int): (r: Result<Store, DbError>)
    ensures r.Ok? <==> card.id in s.columnsCards && s.columnsCards[card.id].columnId == columnId
    ensures card.id !in s.columnsCards ==> r == Err(RowNotFound(card.id))
    ensures card.id in s.columnsCards && s.columnsCards[card.id].columnId != columnId ==>
      r == Err(NotInColumn(card.id, columnId))
    ensures r.Ok? ==> r == DeleteCard(s, card, columnId)
  {
    if card.id !in s.columnsCards then Err(RowNotFound(card.id))
    else if s.columnsCards[card.id].columnId != columnId then Err(NotInColumn(card.id, columnId))
    else DeleteCard(s, card, columnId)
  }

  /** `move_card` that first checks the card really sits at `from`. */
  function MoveCardFrom(s: Store, card: Card, from: CardPos, to: CardPos): (r: Result<Store, DbError>)
    ensures r.Ok? <==> card.id in s.columnsCards && s.columnsCards[card.id] == Slot(from.columnId, from.position)
    ensures card.id !in s.columnsCards ==> r == Err(RowNotFound(card.id))
    ensures r.Ok? ==> r == MoveCard(s, card, from, to)
  {
    if card.id !in s.columnsCards then Err(RowNotFound(card.id))
    else if s.columnsCards[card.id] != Slot(from.columnId, from.position) then
      Err(NotInColumn(card.id, from.columnId))
    else MoveCard(s, card, from, to)
  }

  /** The checked mutations, with the unchecked insert. */
  function ExecuteChecked(s: Store, cmd: Command): Result<Store, DbError> {
    match cmd
    case InsertCommand(card, pos) => InsertCard(s, card, pos)
    case MoveCommand(card, from, to) => MoveCardFrom(s, card, from, to)
    case DeleteCommand(card, columnId) => DeleteCardInColumn(s, card, columnId)
  }

  /** What callers of the checked mutations still promise: the insert or
      move target lies inside an existing column. Nothing about where a card
      currently sits. */
  ghost predicate TargetInRange(s: Store, cmd: Command) {
    match cmd
    case InsertCommand(card, pos) =>
      && pos.columnId in s.columns
      && 0 <= pos.position <= |Members(s.columnsCards, pos.columnId)|
    case MoveCommand(card, from, to) =>
      && to.columnId in s.columns
      && 0 <= to.position
      && to.position <= |Members(s.columnsCards, to.columnId)|
                        - (if to.columnId == from.columnId then 1 else 0)
    case DeleteCommand(card, columnId) => true
  }

  /** A checked mutation keeps a consistent store consistent, whatever place
      the caller names for the card; a rejected one writes nothing. */
  lemma ExecuteCheckedKeepsWellFormed(s: Store, cmd: Command)
    requires WellFormed(s)
    requires TargetInRange(s, cmd)
    ensures WellFormed(Commit(s, ExecuteChecked(s, cmd)))
  {
    match cmd
    case InsertCommand(card, pos) =>
      ApplyKeepsWellFormed(s, cmd);
    case MoveCommand(card, from, to) =>
      if ExecuteChecked(s, cmd).Ok? {
        ApplyKeepsWellFormed(s, cmd);
      }
    case DeleteCommand(card, columnId) =>
      if ExecuteChecked(s, cmd).Ok? {
        ApplyKeepsWellFormed(s, cmd);
      }
  }

  /** The board after each checked command in turn. */
  function ReplayChecked(s: Store, cmds: seq<Command>): Store
    decreases |cmds|
  {
    if cmds == [] then s else ReplayChecked(Commit(s, ExecuteChecked(s, cmds[0])), cmds[1..])
  }

  ghost predicate TargetsInRange(s: Store, cmds: seq<Command>)
    decreases |cmds|
  {
    cmds == [] ||
    (TargetInRange(s, cmds[0]) && TargetsInRange(Commit(s, ExecuteChecked(s, cmds[0])), cmds[1..]))
  }

  /** With the checked delete and move, any sequence of commands whose
      targets are in range keeps the board consistent. */
  lemma {:induction false} ReplayCheckedKeepsWellFormed(s: Store, cmds: seq<Command>)
    requires WellFormed(s)
    requires TargetsInRange(s, cmds)
    ensures WellFormed(ReplayChecked(s, cmds))
    decreases |cmds|
  {
    if cmds != [] {
      ExecuteCheckedKeepsWellFormed(s, cmds[0]);
      ReplayCheckedKeepsWellFormed(Commit(s, ExecuteChecked(s, cmds[0])), cmds[1..]);
    }
  }
}

=== FILE: engine.dfy ===
/**
 The position transaction engine of kanban-03's `database.rs`: the three
 transactional mutations `insert_card`, `move_card` and `delete_card`, the two
 membership helpers they share and the renumbering pass
 `update_card_positions`.

 Every mutation is a pure function from the store to `Result<Store, DbError>`:
 `Ok` carries the store the transaction commits, `Err` means the transaction
 was dropped and the store is left as it was (see `Store.Commit`).
 */
module Engine {
  import opened Results
  import opened Types
  import opened Store
  import Ordering

  /** The rows `update_card_positions` selects: in column `col`, at or after `start`. */
  predicate Affected(slot: Slot, col: int, start: int) {
    slot.columnId == col && slot.position >= start
  }

  /** `ORDER BY card_position ASC`; rows on the same position are listed by card id. */
  predicate ByPosition(m: map<int, Slot>, a: int, b: int) {
    var pa := if a in m then m[a].position else 0;
    var pb := if b in m then m[b].position else 0;
    pa < pb || (pa == pb && a < b)
  }

  function PositionOrder(m: map<int, Slot>): (int, int) -> bool {
    (a: int, b: int) => ByPosition(m, a, b)
  }

  lemma PositionOrderIsTotal(m: map<int, Slot>)
    ensures Ordering.StrictTotalOrder(PositionOrder(m))
  {
  }

  /** The cards `ids`, each once, in ascending position. */
  function OrderedByPosition(m: map<int, Slot>, ids: set<int>): (r: seq<int>)
    requires ids <= m.Keys
    ensures |r| == |ids|
    ensures forall id :: id in r <==> id in ids
    ensures forall k :: 0 <= k < |r| ==> r[k] in ids
    ensures forall j, k :: 0 <= j < k < |r| ==> r[j] != r[k] && m[r[j]].position <= m[r[k]].position
  {
    PositionOrderIsTotal(m);
    var r := Ordering.OrderBy(ids, PositionOrder(m));
    forall j, k | 0 <= j < k < |r|
      ensures r[j] != r[k] && m[r[j]].position <= m[r[k]].position
    {
      assert PositionOrder(m)(r[j], r[k]);
    }
    r
  }

  /** The SELECT of `update_card_positions`: the (card id, position) pairs of the
      affected rows, each once, in ascending position. */
  function SelectAffected(m: map<int, Slot>, col: int, start: int): (rows: seq<(int, int)>)
    ensures forall k :: 0 <= k < |rows| ==>
      rows[k].0 in m && Affected(m[rows[k].0], col, start) && rows[k].1 == m[rows[k].0].position
    ensures forall j, k :: 0 <= j < k < |rows| ==> rows[j].0 != rows[k].0 && rows[j].1 <= rows[k].1
    ensures CardIdsOf(rows) == AffectedIds(m, col, start)
  {
    var ids := OrderedByPosition(m, AffectedIds(m, col, start));
    var rows := WithPositions(m, ids);
    forall k | 0 <= k < |rows|
      ensures rows[k].0 in m && Affected(m[rows[k].0], col, start)
    {
      assert ids[k] in AffectedIds(m, col, start);
    }
    SelectsAffectedIds(m, col, start);
    rows
  }

  lemma SelectsAffectedIds(m: map<int, Slot>, col: int, start: int)
    ensures var ids := OrderedByPosition(m, AffectedIds(m, col, start));
      CardIdsOf(WithPositions(m, ids)) == AffectedIds(m, col, start)
  {
    var ids := OrderedByPosition(m, AffectedIds(m, col, start));
    PairedIds(m, ids);
  }

  function AffectedIds(m: map<int, Slot>, col: int, start: int): set<int> {
    set id | id in m && Affected(m[id], col, start)
  }

  /** The card ids of a list of (card id, position) rows. */
  function CardIdsOf(rows: seq<(int, int)>): set<int> {
    if rows == [] then {} else {rows[0].0} + CardIdsOf(rows[1..])
  }

  /** Where the row of card `id` sits in `rows`. */
  lemma {:induction false} IndexOfCardId(rows: seq<(int, int)>, id: int) returns (k: int)
    requires id in CardIdsOf(rows)
    ensures 0 <= k < |rows| && rows[k].0 == id
  {
    if rows[0].0 == id {
      k := 0;
    } else {
      k := IndexOfCardId(rows[1..], id);
      k := k + 1;
    }
  }

  lemma {:induction false} PairedIds(m: map<int, Slot>, ids: seq<int>)
    requires forall k :: 0 <= k < |ids| ==> ids[k] in m
    ensures CardIdsOf(WithPositions(m, ids)) == set id | id in ids
  {
    if ids != [] {
      PairedIds(m, ids[1..]);
      assert WithPositions(m, ids)[1..] == WithPositions(m, ids[1..]);
      assert (set id | id in ids) == {ids[0]} + set id | id in ids[1..];
    }
  }

  /** Each card id paired with its position. */
  function WithPositions(m: map<int, Slot>, ids: seq<int>): (rows: seq<(int, int)>)
    requires forall k :: 0 <= k < |ids| ==> ids[k] in m
    ensures |rows| == |ids|
    ensures forall k :: 0 <= k < |ids| ==> rows[k] == (ids[k], m[ids[k]].position)
  {
    if ids == [] then [] else [(ids[0], m[ids[0]].position)] + WithPositions(m, ids[1..])
  }

  /** Every affected row with its position rewritten by `f`; the reference for
      `UpdateCardPositions`. */
  function Shift(m: map<int, Slot>, col: int, start: int, f: int -> int): map<int, Slot> {
    map id | id in m :: if Affected(m[id], col, start) then Slot(col, f(m[id].position)) else m[id]
  }

  /** The first step of `update_card_positions`: run the SELECT and collect
      every selected row into `positions` before any row is written. */
  method FetchAffected(m: map<int, Slot>, col: int, start: int) returns (positions: seq<(int, int)>)
    ensures forall k :: 0 <= k < |positions| ==>
      positions[k].0 in m && Affected(m[positions[k].0], col, start)
      && positions[k].1 == m[positions[k].0].position
    ensures forall j, k :: 0 <= j < k < |positions| ==>
      positions[j].0 != positions[k].0 && positions[j].1 <= positions[k].1
    ensures CardIdsOf(positions) == AffectedIds(m, col, start)
  {
    positions := SelectAffected(m, col, start);
  }

  /** `update_card_positions`: freeze the affected rows, then rewrite each one
      with `UPDATE ... WHERE column_id = col AND card_id = id`. Because the
      rows are frozen first, a rewritten row is never matched again: each
      affected row is rewritten exactly once, from its original position. */
  method UpdateCardPositions(m: map<int, Slot>, col: int, start: int, f: int -> int)
    returns (r: map<int, Slot>)
    ensures r.Keys == m.Keys
    ensures forall id :: id in m && Affected(m[id], col, start) ==> r[id] == Slot(col, f(m[id].position))
    ensures forall id :: id in m && !Affected(m[id], col, start) ==> r[id] == m[id]
    ensures r == Shift(m, col, start, f)
  {
    var positions := FetchAffected(m, col, start);
    r := m;
    for i := 0 to |positions|
      invariant r.Keys == m.Keys
      invariant forall id :: id in m && !Affected(m[id], col, start) ==> r[id] == m[id]
      invariant forall k :: 0 <= k < i ==> r[positions[k].0] == Slot(col, f(positions[k].1))
      invariant forall k :: i <= k < |positions| ==> r[positions[k].0] == m[positions[k].0]
    {
      var (cardId, pos) := positions[i];
      if cardId in r && r[cardId].columnId == col {
        r := r[cardId := Slot(col, f(pos))];
      }
    }
    forall id | id in m && Affected(m[id], col, start)
      ensures r[id] == Slot(col, f(m[id].position))
    {
      assert id in AffectedIds(m, col, start);
      var k := IndexOfCardId(positions, id);
    }
  }

  /** `insert_card_position`: make room at `position` in `columnId`, then
      insert the card's membership row there. */
  function InsertCardPosition(s: Store, columnId: int, cardId: int, position: int)
    : (r: Result<Store, DbError>)
    ensures r.Ok? <==> cardId !in s.columnsCards
    ensures r.Err? ==> r.error == DuplicateCardPosition(cardId)
    ensures r.Ok? ==>
      && r.value.columns == s.columns
      && r.value.cards == s.cards
      && r.value.columnsCards.Keys == s.columnsCards.Keys + {cardId}
      && r.value.columnsCards[cardId] == Slot(columnId, position)
      && forall id :: id in s.columnsCards ==>
           r.value.columnsCards[id] ==
             if Affected(s.columnsCards[id], columnId, position)
             then Slot(columnId, s.columnsCards[id].position + 1)
             else s.columnsCards[id]
  {
    var shifted := Shift(s.columnsCards, columnId, position, p => p + 1);
    if cardId in shifted then Err(DuplicateCardPosition(cardId))
    else Ok(s.(columnsCards := shifted[cardId := Slot(columnId, position)]))
  }

  /** `delete_card_position`: delete the card's membership row, whatever its
      column, then close the gap at (`columnId`, `position`) as the caller
      names it. Neither statement can fail on a well-typed store. */
  function DeleteCardPosition(s: Store, columnId: int, cardId: int, position: int): (r: Store)
    ensures r.columns == s.columns
    ensures r.cards == s.cards
    ensures r.columnsCards.Keys == s.columnsCards.Keys - {cardId}
    ensures forall id :: id in r.columnsCards ==>
      r.columnsCards[id] ==
        if Affected(s.columnsCards[id], columnId, position)
        then Slot(columnId, s.columnsCards[id].position - 1)
        else s.columnsCards[id]
  {
    s.(columnsCards := Shift(s.columnsCards - {cardId}, columnId, position, p => p - 1))
  }

  /** `insert_card`: insert the `cards` row, then the membership at `pos`. */
  function InsertCard(s: Store, card: Card, pos: CardPos): (r: Result<Store, DbError>)
    ensures r.Ok? <==> card.id !in s.cards && card.id !in s.columnsCards
    ensures card.id in s.cards ==> r == Err(DuplicateCard(card.id))
    ensures card.id !in s.cards && card.id in s.columnsCards ==> r == Err(DuplicateCardPosition(card.id))
    ensures r.Ok? ==>
      && r.value.columns == s.columns
      && r.value.cards == s.cards[card.id := CardRow(card.title, card.description)]
      && r.value.columnsCards.Keys == s.columnsCards.Keys + {card.id}
      && r.value.columnsCards[card.id] == Slot(pos.columnId, pos.position)
    ensures r.Ok? ==> forall id :: id in s.columnsCards ==>
      r.value.columnsCards[id] ==
        if Affected(s.columnsCards[id], pos.columnId, pos.position)
        then Slot(pos.columnId, s.columnsCards[id].position + 1)
        else s.columnsCards[id]
  {
    if card.id in s.cards then Err(DuplicateCard(card.id))
    else
      var withRow := s.(cards := s.cards[card.id := CardRow(card.title, card.description)]);
      InsertCardPosition(withRow, pos.columnId, card.id, pos.position)
  }

  /** `move_card`: delete the membership at `from`, insert it at `to`, in one
      transaction. Nothing checks that the card really sits at `from`. */
  function MoveCard(s: Store, card: Card, from: CardPos, to: CardPos): (r: Result<Store, DbError>)
    ensures r.Ok?
    ensures r.value.columns == s.columns
    ensures r.value.cards == s.cards
    ensures r.value.columnsCards.Keys == s.columnsCards.Keys + {card.id}
    ensures r.value.columnsCards[card.id] == Slot(to.columnId, to.position)
  {
    var removed := DeleteCardPosition(s, from.columnId, card.id, from.position);
    InsertCardPosition(removed, to.columnId, card.id, to.position)
  }

  /** `delete_card`: look the card's position up by card id alone, delete its
      membership and close the gap in `columnId`, then delete its `cards` row. */
  function DeleteCard(s: Store, card: Card, columnId: int): (r: Result<Store, DbError>)
    ensures r.Err? <==> card.id !in s.columnsCards
    ensures r.Err? ==> r.error == RowNotFound(card.id)
    ensures r.Ok? ==>
      && r.value.columns == s.columns
      && r.value.cards == s.cards - {card.id}
      && r.value.columnsCards.Keys == s.columnsCards.Keys - {card.id}
    ensures r.Ok? ==> forall id :: id in r.value.columnsCards ==>
      r.value.columnsCards[id] ==
        if Affected(s.columnsCards[id], columnId, s.columnsCards[card.id].position)
        then Slot(columnId, s.columnsCards[id].position - 1)
        else s.columnsCards[id]
  {
    if card.id !in s.columnsCards then Err(RowNotFound(card.id))
    else
      var position := s.columnsCards[card.id].position;
      var removed := DeleteCardPosition(s, columnId, card.id, position);
      Ok(removed.(cards := removed.cards - {card.id}))
  }
}

=== FILE: invariant.dfy ===
/**
 The board-wide invariant and its preservation by any sequence of mutations
 whose arguments respect what the engine does not check itself.
 */
module Invariant {
  import opened Results
  import opened Types
  import opened Store
  import opened Engine
  import opened Properties

  /** A consistent board: every card has exactly one membership and every
      membership has a card; every membership names a loaded column; every
      column is dense. */
  ghost predicate WellFormed(s: Store) {
    && s.cards.Keys == s.columnsCards.Keys
    && (forall id :: id in s.columnsCards ==> s.columnsCards[id].columnId in s.columns)
    && (forall c :: c in s.columns ==> Dense(s.columnsCards, c))
  }

  /** The three mutations the front end can request. */
  datatype Command =
    | InsertCommand(card: Card, pos: CardPos)
    | MoveCommand(card: Card, from: CardPos, to: CardPos)
    | DeleteCommand(card: Card, columnId: int)

  function Execute(s: Store, cmd: Command): Result<Store, DbError> {
    match cmd
    case InsertCommand(card, pos) => InsertCard(s, card, pos)
    case MoveCommand(card, from, to) => MoveCard(s, card, from, to)
    case DeleteCommand(card, columnId) => DeleteCard(s, card, columnId)
  }

  /** The store after the command's transaction commits or rolls back. */
  function Apply(s: Store, cmd: Command): (s': Store)
    ensures Execute(s, cmd).Err? ==> s' == s
    ensures Execute(s, cmd).Ok? ==> s' == Execute(s, cmd).value
  {
    Commit(s, Execute(s, cmd))
  }

  /** What the engine leaves to its callers, because nothing in it checks:
      the target column exists and the target position lies inside it; a
      moved card really sits at `from`; a deleted card sits in the column
      named. Duplicate ids and missing memberships need no such promise:
      those make the transaction fail. */
  ghost predicate CallerKeepsPromises(s: Store, cmd: Command) {
    match cmd
    case InsertCommand(card, pos) =>
      && pos.columnId in s.columns
      && 0 <= pos.position <= |Members(s.columnsCards, pos.columnId)|
    case MoveCommand(card, from, to) =>
      && card.id in s.columnsCards
      && s.columnsCards[card.id] == Slot(from.columnId, from.position)
      && to.columnId in s.columns
      && 0 <= to.position
      && to.position <= |Members(s.columnsCards, to.columnId)|
                        - (if to.columnId == from.columnId then 1 else 0)
    case DeleteCommand(card, columnId) =>
      card.id in s.columnsCards ==> s.columnsCards[card.id].columnId == columnId
  }

  /** An insert into an existing column at a slot 0 .. n keeps the board
      consistent (a rejected one writes nothing). */
  lemma InsertKeepsWellFormed(s: Store, card: Card, pos: CardPos)
    requires WellFormed(s)
    requires pos.columnId in s.columns
    requires 0 <= pos.position <= |Members(s.columnsCards, pos.columnId)|
    ensures WellFormed(Commit(s, InsertCard(s, card, pos)))
  {
    if card.id !in s.cards {
      var withRow := s.(cards := s.cards[card.id := CardRow(card.title, card.description)]);
      if card.id !in s.columnsCards {
        var r := InsertCardPosition(withRow, pos.columnId, card.id, pos.position).value;
        assert Commit(s, InsertCard(s, card, pos)) == r;
        InsertCardPositionKeepsOtherColumns(withRow, pos.columnId, card.id, pos.position);
        InsertCardPositionKeepsDense(withRow, pos.columnId, card.id, pos.position);
        assert r.cards.Keys == r.columnsCards.Keys;
        assert forall id :: id in r.columnsCards ==> r.columnsCards[id].columnId in r.columns;
        assert Dense(r.columnsCards, pos.columnId);
        assert forall c :: c in r.columns && c != pos.columnId ==> Dense(r.columnsCards, c);
      }
    }
  }

  /** A move of a card from its real slot to a slot inside an existing
      column keeps the board consistent. */
  lemma MoveKeepsWellFormed(s: Store, card: Card, from: CardPos, to: CardPos)
    requires WellFormed(s)
    requires card.id in s.columnsCards
    requires s.columnsCards[card.id] == Slot(from.columnId, from.position)
    requires to.columnId in s.columns
    requires 0 <= to.position
    requires to.position <= |Members(s.columnsCards, to.columnId)|
                            - (if to.columnId == from.columnId then 1 else 0)
    ensures WellFormed(Commit(s, MoveCard(s, card, from, to)))
  {
    MoveCardKeepsDense(s, card, from, to);
    MoveCardKeepsOtherColumns(s, card, from, to);
  }

  /** A delete naming the card's real column keeps the board consistent. */
  lemma DeleteKeepsWellFormed(s: Store, card: Card, columnId: int)
    requires WellFormed(s)
    requires card.id in s.columnsCards ==> s.columnsCards[card.id].columnId == columnId
    ensures WellFormed(Commit(s, DeleteCard(s, card, columnId)))
  {
    if card.id in s.columnsCards {
      DeleteCardPositionKeepsDense(s, columnId, card.id, s.columnsCards[card.id].position);
    }
  }

  /** One committed or rolled-back mutation keeps the board consistent. */
  lemma ApplyKeepsWellFormed(s: Store, cmd: Command)
    requires WellFormed(s)
    requires CallerKeepsPromises(s, cmd)
    ensures WellFormed(Apply(s, cmd))
  {
    match cmd
    case InsertCommand(card, pos) =>
      InsertKeepsWellFormed(s, card, pos);
    case MoveCommand(card, from, to) =>
      MoveKeepsWellFormed(s, card, from, to);
    case DeleteCommand(card, columnId) =>
      DeleteKeepsWellFormed(s, card, columnId);
  }

  /** The board after each command in turn. */
  function Replay(s: Store, cmds: seq<Command>): Store
    decreases |cmds|
  {
    if cmds == [] then s else Replay(Apply(s, cmds[0]), cmds[1..])
  }

  /** Every command of the sequence keeps the callers' promises in the store
      it is applied to. */
  ghost predicate PromisesKept(s: Store, cmds: seq<Command>)
    decreases |cmds|
  {
    cmds == [] || (CallerKeepsPromises(s, cmds[0]) && PromisesKept(Apply(s, cmds[0]), cmds[1..]))
  }

  /** After any sequence of inserts, moves and deletes whose callers keep
      their promises, every column still holds positions exactly 0 .. n-1. */
  lemma {:induction false} ReplayKeepsWellFormed(s: Store, cmds: seq<Command>)
    requires WellFormed(s)
    requires PromisesKept(s, cmds)
    ensures WellFormed(Replay(s, cmds))
    ensures forall c :: c in Replay(s, cmds).columns ==>
      Positions(Replay(s, cmds).columnsCards, c) == Interval(|Members(Replay(s, cmds).columnsCards, c)|)
    decreases |cmds|
  {
    if cmds != [] {
      ApplyKeepsWellFormed(s, cmds[0]);
      ReplayKeepsWellFormed(Apply(s, cmds[0]), cmds[1..]);
    }
    var r := Replay(s, cmds);
    forall c | c in r.columns
      ensures Positions(r.columnsCards, c) == Interval(|Members(r.columnsCards, c)|)
    {
      DenseFillsEverySlot(r.columnsCards, c);
    }
  }
}

=== FILE: ordering.dfy ===
/**
 Ordering of finite sets into sequences. SQL's `ORDER BY` and the ascending
 iteration of a Rust `BTreeMap` are both modelled by `OrderBy`, which lists a
 finite set in increasing order of a strict total order.
 */
module Ordering {

  /** `less` is irreflexive, transitive and relates any two distinct values. */
  ghost predicate StrictTotalOrder<T(!new)>(less: (T, T) -> bool) {
    && (forall x :: !less(x, x))
    && (forall x, y, z :: less(x, y) && less(y, z) ==> less(x, z))
    && (forall x, y :: x != y ==> less(x, y) || less(y, x))
  }

  /** Every earlier element of `s` is `less` than every later one. */
  ghost predicate Increasing<T>(s: seq<T>, less: (T, T) -> bool) {
    forall i, j :: 0 <= i < j < |s| ==> less(s[i], s[j])
  }

  /** `x` is the least element of `s`. */
  predicate IsLeast<T(==)>(s: set<T>, less: (T, T) -> bool, x: T) {
    x in s && forall y :: y in s && y != x ==> less(x, y)
  }

  /** Some element of a non-empty set. */
  lemma Pick<T>(s: set<T>) returns (x: T)
    requires s != {}
    ensures x in s
  {
    x :| x in s;
  }

  /** Every non-empty finite set has a least element. */
  lemma {:induction false} LeastExists<T(!new)>(s: set<T>, less: (T, T) -> bool)
    requires s != {}
    requires StrictTotalOrder(less)
    ensures exists x :: IsLeast(s, less, x)
    decreases |s|
  {
    var a :| a in s;
    if s == {a} {
      assert IsLeast(s, less, a);
    } else {
      var rest := s - {a};
      LeastExists(rest, less);
      var b :| IsLeast(rest, less, b);
      if less(a, b) {
        forall y | y in s && y != a
          ensures less(a, y)
        {
          if y != b {
            assert less(b, y);
          }
        }
        assert IsLeast(s, less, a);
      } else {
        assert IsLeast(s, less, b);
      }
    }
  }

  /** The least element of a non-empty set. */
  function Least<T(!new,==)>(s: set<T>, less: (T, T) -> bool): (x: T)
    requires s != {}
    requires StrictTotalOrder(less)
    ensures x in s
    ensures forall y :: y in s && y != x ==> less(x, y)
  {
    LeastExists(s, less);
    var x :| IsLeast(s, less, x);
    x
  }

  /** The elements of `s`, each exactly once, in increasing order. */
  function OrderBy<T(!new,==)>(s: set<T>, less: (T, T) -> bool): (r: seq<T>)
    requires StrictTotalOrder(less)
    ensures |r| == |s|
    ensures forall x :: x in r <==> x in s
    ensures forall k :: 0 <= k < |r| ==> r[k] in s
    ensures Increasing(r, less)
    decreases s
  {
    if s == {} then []
    else
      var x := Least(s, less);
      [x] + OrderBy(s - {x}, less)
  }

  /** Where `x` sits in `s`. */
  lemma {:induction false} IndexOf<T>(s: seq<T>, x: T) returns (k: int)
    requires x in s
    ensures 0 <= k < |s| && s[k] == x
  {
    if s[0] == x {
      k := 0;
    } else {
      k := IndexOf(s[1..], x);
      k := k + 1;
    }
  }
}

=== FILE: properties.dfy ===
/**
 What the position engine guarantees when its callers pass the slot a card
 really occupies and a destination inside the column: density is kept by
 every mutation, a move back onto the card's own slot changes nothing, and an
 insert followed by a delete of the same card restores the store.
 */
module Properties {
  import opened Results
  import opened Types
  import opened Store
  import opened Engine

  /** Whether a column is dense depends on that column's rows alone. */
  lemma DenseFrame(m1: map<int, Slot>, m2: map<int, Slot>, c: int)
    requires forall id :: (id in m1 && m1[id].columnId == c) <==> (id in m2 && m2[id].columnId == c)
    requires forall id :: id in m1 && m1[id].columnId == c ==> id in m2 && m2[id] == m1[id]
    ensures Members(m1, c) == Members(m2, c)
    ensures Dense(m1, c) <==> Dense(m2, c)
  {
    forall id
      ensures id in Members(m1, c) <==> id in Members(m2, c)
    {
    }
    assert Members(m1, c) == Members(m2, c);
  }

  /** `insert_card_position` adds exactly the new card to the column. */
  lemma InsertCardPositionAddsMember(s: Store, col: int, cardId: int, p: int)
    requires cardId !in s.columnsCards
    ensures InsertCardPosition(s, col, cardId, p).Ok?
    ensures var m' := InsertCardPosition(s, col, cardId, p).value.columnsCards;
      && Members(m', col) == Members(s.columnsCards, col) + {cardId}
      && |Members(m', col)| == |Members(s.columnsCards, col)| + 1
  {
  }

  /** Shifting the cards at or after `p` up by one leaves slot `p` free and
      keeps positions distinct. */
  lemma InsertCardPositionKeepsDistinct(s: Store, col: int, cardId: int, p: int)
    requires cardId !in s.columnsCards
    requires Distinct(s.columnsCards, col)
    ensures InsertCardPosition(s, col, cardId, p).Ok?
    ensures Distinct(InsertCardPosition(s, col, cardId, p).value.columnsCards, col)
  {
  }

  /** Into a dense column at a slot 0 .. n, every position stays below n + 1. */
  lemma InsertCardPositionStaysInRange(s: Store, col: int, cardId: int, p: int)
    requires cardId !in s.columnsCards
    requires Dense(s.columnsCards, col)
    requires 0 <= p <= |Members(s.columnsCards, col)|
    ensures InsertCardPosition(s, col, cardId, p).Ok?
    ensures var m' := InsertCardPosition(s, col, cardId, p).value.columnsCards;
      forall id :: id in m' && m'[id].columnId == col ==>
        0 <= m'[id].position < |Members(s.columnsCards, col)| + 1
  {
  }

  /** Every other column keeps its cards and its density. */
  lemma InsertCardPositionKeepsOtherColumns(s: Store, col: int, cardId: int, p: int)
    requires cardId !in s.columnsCards
    ensures InsertCardPosition(s, col, cardId, p).Ok?
    ensures var m' := InsertCardPosition(s, col, cardId, p).value.columnsCards;
      forall c :: c != col ==>
        Members(m', c) == Members(s.columnsCards, c) && (Dense(s.columnsCards, c) ==> Dense(m', c))
  {
  }

  /** `insert_card_position` into a dense column at a slot 0 .. n keeps it dense,
      now with n + 1 cards; every other column keeps its cards and its density. */
  lemma InsertCardPositionKeepsDense(s: Store, col: int, cardId: int, p: int)
    requires cardId !in s.columnsCards
    requires Dense(s.columnsCards, col)
    requires 0 <= p <= |Members(s.columnsCards, col)|
    ensures InsertCardPosition(s, col, cardId, p).Ok?
    ensures var m' := InsertCardPosition(s, col, cardId, p).value.columnsCards;
      && Members(m', col) == Members(s.columnsCards, col) + {cardId}
      && |Members(m', col)| == |Members(s.columnsCards, col)| + 1
      && Dense(m', col)
    ensures var m' := InsertCardPosition(s, col, cardId, p).value.columnsCards;
      forall c :: c != col ==>
        Members(m', c) == Members(s.columnsCards, c) && (Dense(s.columnsCards, c) ==> Dense(m', c))
  {
    InsertCardPositionAddsMember(s, col, cardId, p);
    InsertCardPositionKeepsDistinct(s, col, cardId, p);
    InsertCardPositionStaysInRange(s, col, cardId, p);
    InsertCardPositionKeepsOtherColumns(s, col, cardId, p);
  }

  /** `delete_card_position` of a card of the column removes exactly it. */
  lemma DeleteCardPositionRemovesMember(s: Store, col: int, cardId: int, p: int)
    requires cardId in s.columnsCards && s.columnsCards[cardId].columnId == col
    ensures var m' := DeleteCardPosition(s, col, cardId, p).columnsCards;
      && Members(m', col) == Members(s.columnsCards, col) - {cardId}
      && |Members(m', col)| == |Members(s.columnsCards, col)| - 1
  {
  }

  /** Closing the gap at the deleted card's slot keeps the remaining cards
      in their relative order, so positions stay distinct. */
  lemma DeleteCardPositionKeepsOrder(s: Store, col: int, cardId: int, p: int)
    requires cardId in s.columnsCards && s.columnsCards[cardId] == Slot(col, p)
    requires Distinct(s.columnsCards, col)
    ensures var m := s.columnsCards; var m' := DeleteCardPosition(s, col, cardId, p).columnsCards;
      forall a, b :: a in Members(m', col) && b in Members(m', col) ==>
        (m'[a].position < m'[b].position <==> m[a].position < m[b].position)
    ensures Distinct(DeleteCardPosition(s, col, cardId, p).columnsCards, col)
  {
  }

  /** In a dense column every remaining position stays below n - 1. */
  lemma DeleteCardPositionStaysInRange(s: Store, col: int, cardId: int, p: int)
    requires cardId in s.columnsCards && s.columnsCards[cardId] == Slot(col, p)
    requires Dense(s.columnsCards, col)
    ensures var m' := DeleteCardPosition(s, col, cardId, p).columnsCards;
      forall id :: id in m' && m'[id].columnId == col ==>
        0 <= m'[id].position < |Members(s.columnsCards, col)| - 1
  {
  }

  /** Every other column keeps its cards and its density. */
  lemma DeleteCardPositionKeepsOtherColumns(s: Store, col: int, cardId: int, p: int)
    requires cardId in s.columnsCards && s.columnsCards[cardId].columnId == col
    ensures var m' := DeleteCardPosition(s, col, cardId, p).columnsCards;
      forall c :: c != col ==>
        Members(m', c) == Members(s.columnsCards, c) && (Dense(s.columnsCards, c) ==> Dense(m', c))
  {
  }

  /** `delete_card_position` of a card at its real slot (col, p) of a dense
      column keeps the column dense with one card fewer, keeps the relative
      order of the remaining cards and leaves the other columns alone. */
  lemma DeleteCardPositionKeepsDense(s: Store, col: int, cardId: int, p: int)
    requires cardId in s.columnsCards && s.columnsCards[cardId] == Slot(col, p)
    requires Dense(s.columnsCards, col)
    ensures var m' := DeleteCardPosition(s, col, cardId, p).columnsCards;
      && Members(m', col) == Members(s.columnsCards, col) - {cardId}
      && |Members(m', col)| == |Members(s.columnsCards, col)| - 1
      && Dense(m', col)
    ensures var m := s.columnsCards; var m' := DeleteCardPosition(s, col, cardId, p).columnsCards;
      forall a, b :: a in Members(m', col) && b in Members(m', col) ==>
        (m'[a].position < m'[b].position <==> m[a].position < m[b].position)
    ensures var m' := DeleteCardPosition(s, col, cardId, p).columnsCards;
      forall c :: c != col ==>
        Members(m', c) == Members(s.columnsCards, c) && (Dense(s.columnsCards, c) ==> Dense(m', c))
  {
    DeleteCardPositionRemovesMember(s, col, cardId, p);
    DeleteCardPositionKeepsOrder(s, col, cardId, p);
    DeleteCardPositionStaysInRange(s, col, cardId, p);
    DeleteCardPositionKeepsOtherColumns(s, col, cardId, p);
  }

  /** A move within one column, from the card's real slot to a slot
      0 .. n-1, keeps the column dense. */
  lemma MoveWithinColumnKeepsDense(s: Store, card: Card, c: int, from: int, to: int)
    requires card.id in s.columnsCards && s.columnsCards[card.id] == Slot(c, from)
    requires Dense(s.columnsCards, c)
    requires 0 <= to < |Members(s.columnsCards, c)|
    ensures Dense(MoveCard(s, card, CardPos(c, from), CardPos(c, to)).value.columnsCards, c)
  {
    var removed := DeleteCardPosition(s, c, card.id, from);
    DeleteCardPositionKeepsDense(s, c, card.id, from);
    InsertCardPositionKeepsDense(removed, c, card.id, to);
  }

  /** A move between two columns, from the card's real slot to a slot
      0 .. n of the destination, keeps both columns dense. */
  lemma MoveAcrossColumnsKeepsDense(s: Store, card: Card, from: CardPos, to: CardPos)
    requires from.columnId != to.columnId
    requires card.id in s.columnsCards
    requires s.columnsCards[card.id] == Slot(from.columnId, from.position)
    requires Dense(s.columnsCards, from.columnId) && Dense(s.columnsCards, to.columnId)
    requires 0 <= to.position <= |Members(s.columnsCards, to.columnId)|
    ensures var m' := MoveCard(s, card, from, to).value.columnsCards;
      Dense(m', from.columnId) && Dense(m', to.columnId)
  {
    var removed := DeleteCardPosition(s, from.columnId, card.id, from.position);
    DeleteCardPositionKeepsDense(s, from.columnId, card.id, from.position);
    InsertCardPositionKeepsDense(removed, to.columnId, card.id, to.position);
  }

  /** `move_card` from the card's real slot to a slot inside the destination
      keeps both columns dense and puts the card at `to` and nowhere else. */
  lemma MoveCardKeepsDense(s: Store, card: Card, from: CardPos, to: CardPos)
    requires card.id in s.columnsCards
    requires s.columnsCards[card.id] == Slot(from.columnId, from.position)
    requires Dense(s.columnsCards, from.columnId) && Dense(s.columnsCards, to.columnId)
    requires 0 <= to.position
    requires to.position <= |Members(s.columnsCards, to.columnId)| - (if to.columnId == from.columnId then 1 else 0)
    ensures var m' := MoveCard(s, card, from, to).value.columnsCards;
      && Dense(m', from.columnId)
      && Dense(m', to.columnId)
      && m'.Keys == s.columnsCards.Keys
      && m'[card.id] == Slot(to.columnId, to.position)
  {
    if from.columnId == to.columnId {
      MoveWithinColumnKeepsDense(s, card, from.columnId, from.position, to.position);
      assert CardPos(from.columnId, from.position) == from;
      assert CardPos(from.columnId, to.position) == to;
    } else {
      MoveAcrossColumnsKeepsDense(s, card, from, to);
    }
  }

  /** `move_card` leaves the `cards` table and every column other than its
      two alone. */
  lemma MoveCardKeepsOtherColumns(s: Store, card: Card, from: CardPos, to: CardPos)
    requires card.id in s.columnsCards
    requires s.columnsCards[card.id] == Slot(from.columnId, from.position)
    ensures MoveCard(s, card, from, to).value.cards == s.cards
    ensures var m' := MoveCard(s, card, from, to).value.columnsCards;
      forall c :: c != from.columnId && c != to.columnId ==>
        Members(m', c) == Members(s.columnsCards, c) && (Dense(s.columnsCards, c) ==> Dense(m', c))
    ensures var m' := MoveCard(s, card, from, to).value.columnsCards;
      forall id ::
        (&& id in s.columnsCards && id != card.id
         && s.columnsCards[id].columnId != from.columnId
         && s.columnsCards[id].columnId != to.columnId) ==>
        m'[id] == s.columnsCards[id]
  {
    var m := s.columnsCards;
    var removed := DeleteCardPosition(s, from.columnId, card.id, from.position);
    var m' := MoveCard(s, card, from, to).value.columnsCards;
    InsertCardPositionKeepsOtherColumns(removed, to.columnId, card.id, to.position);
    forall c | c != from.columnId && c != to.columnId
      ensures Members(m', c) == Members(m, c) && (Dense(m, c) ==> Dense(m', c))
    {
      DenseFrame(m, removed.columnsCards, c);
    }
  }

  /** Moving a card onto the slot it already occupies, in a column where no
      other card shares that slot, changes nothing at all. */
  lemma MoveToSameSlotIsNoOp(s: Store, card: Card, c: int, p: int)
    requires card.id in s.columnsCards && s.columnsCards[card.id] == Slot(c, p)
    requires forall id :: id in s.columnsCards && id != card.id ==> s.columnsCards[id] != Slot(c, p)
    ensures MoveCard(s, card, CardPos(c, p), CardPos(c, p)) == Ok(s)
  {
    var m := s.columnsCards;
    var removed := DeleteCardPosition(s, c, card.id, p).columnsCards;
    var r := MoveCard(s, card, CardPos(c, p), CardPos(c, p)).value;
    forall id | id in m
      ensures r.columnsCards[id] == m[id]
    {
      if id != card.id {
        assert removed[id] == (if Affected(m[id], c, p) then Slot(c, m[id].position - 1) else m[id]);
      }
    }
    assert r.columnsCards == m;
  }

  /** `insert_card` at any slot followed by `delete_card` of the same card in
      that column restores the store exactly: every other card is back at its
      old position and the card's row is gone. No density is needed. */
  lemma InsertThenDeleteRestores(s: Store, card: Card, pos: CardPos)
    requires card.id !in s.cards && card.id !in s.columnsCards
    ensures InsertCard(s, card, pos).Ok?
    ensures DeleteCard(InsertCard(s, card, pos).value, card, pos.columnId) == Ok(s)
  {
    var s1 := InsertCard(s, card, pos).value;
    var s2 := DeleteCard(s1, card, pos.columnId).value;
    assert s2.columnsCards == s.columnsCards;
    assert s2.cards == s.cards;
  }
}

=== FILE: reader.dfy ===
/**
 The snapshot reader `get_columns` of kanban-03's `database.rs`: load every
 column into a map keyed by id, stream the cards joined with their
 memberships in (column, position) order and append each to its column, then
 list the columns in ascending id order.
 */
module Reader {
  import opened Results
  import opened Types
  import opened Store
  import Ordering

  /** A row of the second query: the card's column and the card itself. */
  datatype JoinedRow = JoinedRow(columnId: int, card: Card)

  /** `ORDER BY cc.column_id ASC, cc.card_position ASC`; rows that tie are
      listed by card id. */
  predicate ByColumnPosition(m: map<int, Slot>, a: int, b: int) {
    var ca := if a in m then m[a].columnId else 0;
    var cb := if b in m then m[b].columnId else 0;
    var pa := if a in m then m[a].position else 0;
    var pb := if b in m then m[b].position else 0;
    ca < cb || (ca == cb && (pa < pb || (pa == pb && a < b)))
  }

  function ColumnPositionOrder(m: map<int, Slot>): (int, int) -> bool {
    (a: int, b: int) => ByColumnPosition(m, a, b)
  }

  function AscendingIds(): (int, int) -> bool {
    (a: int, b: int) => a < b
  }

  lemma OrdersAreTotal(m: map<int, Slot>)
    ensures Ordering.StrictTotalOrder(ColumnPositionOrder(m))
    ensures Ordering.StrictTotalOrder(AscendingIds())
  {
  }

  /** The joined row a card with a membership and a `cards` row yields. */
  function RowOf(s: Store, id: int): JoinedRow
    requires id in Joined(s)
  {
    JoinedRow(s.columnsCards[id].columnId, NewCard(id, s.cards[id].title, s.cards[id].description))
  }

  /** The cards that have both a membership and a `cards` row: the inner join. */
  function Joined(s: Store): set<int> {
    set id | id in s.columnsCards && id in s.cards
  }

  /** The second query of `get_columns`: one row per card of the inner join,
      in (column, position) order. A membership whose card row is missing
      yields no row. */
  function SelectJoined(s: Store): (rows: seq<JoinedRow>)
    ensures forall k :: 0 <= k < |rows| ==>
      rows[k].card.id in Joined(s) && rows[k] == RowOf(s, rows[k].card.id)
    ensures forall j, k :: 0 <= j < k < |rows| ==>
      ByColumnPosition(s.columnsCards, rows[j].card.id, rows[k].card.id)
  {
    OrdersAreTotal(s.columnsCards);
    var ids := Ordering.OrderBy(Joined(s), ColumnPositionOrder(s.columnsCards));
    var rows := RowsOf(s, ids);
    forall j, k | 0 <= j < k < |rows|
      ensures ByColumnPosition(s.columnsCards, rows[j].card.id, rows[k].card.id)
    {
      assert ColumnPositionOrder(s.columnsCards)(ids[j], ids[k]);
    }
    rows
  }

  /** The second query misses no card of the inner join. */
  lemma SelectJoinedIsComplete(s: Store, id: int) returns (k: int)
    requires id in Joined(s)
    ensures 0 <= k < |SelectJoined(s)| && SelectJoined(s)[k] == RowOf(s, id)
  {
    OrdersAreTotal(s.columnsCards);
    var ids := Ordering.OrderBy(Joined(s), ColumnPositionOrder(s.columnsCards));
    k := Ordering.IndexOf(ids, id);
  }

  function RowsOf(s: Store, ids: seq<int>): (rows: seq<JoinedRow>)
    requires forall k :: 0 <= k < |ids| ==> ids[k] in Joined(s)
    ensures |rows| == |ids|
    ensures forall k :: 0 <= k < |ids| ==> rows[k] == RowOf(s, ids[k])
  {
    if ids == [] then [] else [RowOf(s, ids[0])] + RowsOf(s, ids[1..])
  }

  /** The cards of the rows that belong to column `c`, in row order. */
  function CardsIn(rows: seq<JoinedRow>, c: int): seq<Card> {
    if rows == [] then []
    else if rows[0].columnId == c then [rows[0].card] + CardsIn(rows[1..], c)
    else CardsIn(rows[1..], c)
  }

  /** The loop of `get_columns` over the joined rows: each card is appended
      to its column; a row naming a column that was not loaded makes
      `columns.get_mut(&column_id).unwrap()` panic. */
  function AppendCards(columns: map<int, Column>, rows: seq<JoinedRow>): (r: Result<map<int, Column>, DbError>)
    ensures r.Ok? <==> forall k :: 0 <= k < |rows| ==> rows[k].columnId in columns
    ensures r.Err? ==> r.error.Panicked? && r.error.columnId !in columns
    ensures r.Ok? ==> r.value.Keys == columns.Keys
    decreases |rows|
  {
    if rows == [] then Ok(columns)
    else
      var c := rows[0].columnId;
      if c !in columns then Err(Panicked(c))
      else
        var r := AppendCards(columns[c := AddCard(columns[c], rows[0].card)], rows[1..]);
        assert forall k :: 1 <= k < |rows| ==> rows[k] == rows[1..][k - 1];
        r
  }

  /** When no row panics, each loaded column ends up with its own cards
      appended in the order the rows arrived, its id and title unchanged. */
  lemma {:induction false} AppendCardsAppends(columns: map<int, Column>, rows: seq<JoinedRow>, c: int)
    requires AppendCards(columns, rows).Ok?
    requires c in columns
    ensures AppendCards(columns, rows).value[c].id == columns[c].id
    ensures AppendCards(columns, rows).value[c].title == columns[c].title
    ensures AppendCards(columns, rows).value[c].cards == columns[c].cards + CardsIn(rows, c)
    decreases |rows|
  {
    if rows == [] {
      assert columns[c].cards + CardsIn(rows, c) == columns[c].cards;
    } else {
      var d := rows[0].columnId;
      assert d in columns;
      var next := columns[d := AddCard(columns[d], rows[0].card)];
      assert AppendCards(columns, rows) == AppendCards(next, rows[1..]);
      AppendCardsAppends(next, rows[1..], c);
      if d == c {
        assert (columns[c].cards + [rows[0].card]) + CardsIn(rows[1..], c)
          == columns[c].cards + ([rows[0].card] + CardsIn(rows[1..], c));
      }
    }
  }

  /** `columns.into_iter()`: the keys of a `BTreeMap`, in ascending order. */
  function SortedKeys(columns: map<int, Column>): (ids: seq<int>)
    ensures |ids| == |columns|
    ensures forall k :: 0 <= k < |ids| ==> ids[k] in columns
    ensures forall j, k :: 0 <= j < k < |ids| ==> ids[j] < ids[k]
    ensures forall c :: c in columns ==> c in ids
  {
    OrdersAreTotal(map[]);
    var ids := Ordering.OrderBy(columns.Keys, AscendingIds());
    forall j, k | 0 <= j < k < |ids|
      ensures ids[j] < ids[k]
    {
      assert AscendingIds()(ids[j], ids[k]);
    }
    ids
  }

  /** `columns.into_iter().map(|(_k, v)| v).collect()`: the columns in
      ascending key order. */
  function Collect(columns: map<int, Column>): (r: seq<Column>)
    ensures |r| == |columns|
    ensures forall k :: 0 <= k < |r| ==> r[k] == columns[SortedKeys(columns)[k]]
  {
    var ids := SortedKeys(columns);
    seq(|ids|, k requires 0 <= k < |ids| => columns[ids[k]])
  }

  /** The columns as first loaded from the `columns` table, without cards. */
  function LoadColumns(s: Store): map<int, Column> {
    map id | id in s.columns :: NewColumn(id, s.columns[id])
  }

  /** Appending the joined rows succeeds exactly when every joined card
      names a loaded column. */
  lemma AppendSucceedsOnKnownColumns(s: Store)
    ensures AppendCards(LoadColumns(s), SelectJoined(s)).Ok? <==>
      forall id :: id in Joined(s) ==> s.columnsCards[id].columnId in s.columns
  {
    var rows := SelectJoined(s);
    if AppendCards(LoadColumns(s), rows).Ok? {
      forall id | id in Joined(s)
        ensures s.columnsCards[id].columnId in s.columns
      {
        var k := SelectJoinedIsComplete(s, id);
      }
    } else {
      var k :| 0 <= k < |rows| && rows[k].columnId !in LoadColumns(s);
      assert rows[k].card.id in Joined(s);
    }
  }

  /** `get_columns`: succeeds exactly when every joined card names a loaded
      column; otherwise `unwrap` panics on such a missing column. */
  function GetColumns(s: Store): (r: Result<seq<Column>, DbError>)
    ensures r.Ok? <==>
      forall id :: id in Joined(s) ==> s.columnsCards[id].columnId in s.columns
    ensures r.Err? ==> r.error.Panicked? && r.error.columnId !in s.columns
  {
    AppendSucceedsOnKnownColumns(s);
    match AppendCards(LoadColumns(s), SelectJoined(s))
    case Err(e) => Err(e)
    case Ok(columns) => Ok(Collect(columns))
  }

  /** On success `get_columns` lists one column per `columns` row, in
      ascending id order, each with its title and with the cards the joined
      rows assign to it. */
  lemma GetColumnsListsColumns(s: Store)
    requires GetColumns(s).Ok?
    ensures var cols := GetColumns(s).value;
      && |cols| == |s.columns|
      && (forall i, j :: 0 <= i < j < |cols| ==> cols[i].id < cols[j].id)
      && (forall i :: 0 <= i < |cols| ==>
            && cols[i].id in s.columns
            && cols[i].title == s.columns[cols[i].id]
            && cols[i].cards == CardsIn(SelectJoined(s), cols[i].id))
  {
    var loaded := LoadColumns(s);
    var rows := SelectJoined(s);
    var columns := AppendCards(loaded, rows).value;
    var ids := SortedKeys(columns);
    var cols := Collect(columns);
    assert columns.Keys == loaded.Keys == s.columns.Keys;
    assert |columns| == |columns.Keys| == |s.columns.Keys| == |s.columns|;
    forall i | 0 <= i < |cols|
      ensures cols[i].id == ids[i]
      ensures cols[i].id in s.columns
      ensures cols[i].title == s.columns[cols[i].id]
      ensures cols[i].cards == CardsIn(rows, cols[i].id)
    {
      AppendCardsAppends(loaded, rows, ids[i]);
    }
  }

  /** On success no column of the `columns` table is missing from the list. */
  lemma GetColumnsMissesNoColumn(s: Store, c: int) returns (i: int)
    requires GetColumns(s).Ok? && c in s.columns
    ensures 0 <= i < |GetColumns(s).value| && GetColumns(s).value[i].id == c
  {
    var loaded := LoadColumns(s);
    var columns := AppendCards(loaded, SelectJoined(s)).value;
    var ids := SortedKeys(columns);
    i := Ordering.IndexOf(ids, c);
    AppendCardsAppends(loaded, SelectJoined(s), c);
  }

  /** Where card `k` of column `c` came from in `rows`. */
  lemma {:induction false} OriginOf(rows: seq<JoinedRow>, c: int, k: int) returns (i: int)
    requires 0 <= k < |CardsIn(rows, c)|
    ensures 0 <= i < |rows| && rows[i].columnId == c && rows[i].card == CardsIn(rows, c)[k]
  {
    if rows[0].columnId == c && k == 0 {
      i := 0;
    } else if rows[0].columnId == c {
      i := OriginOf(rows[1..], c, k - 1);
      i := i + 1;
    } else {
      i := OriginOf(rows[1..], c, k);
      i := i + 1;
    }
  }

  /** Cards keep the order of the rows they came from. */
  lemma {:induction false} OriginsInOrder(rows: seq<JoinedRow>, c: int, j: int, k: int)
    returns (i1: int, i2: int)
    requires 0 <= j < k < |CardsIn(rows, c)|
    ensures 0 <= i1 < i2 < |rows|
    ensures rows[i1].card == CardsIn(rows, c)[j] && rows[i2].card == CardsIn(rows, c)[k]
  {
    if rows[0].columnId == c && j == 0 {
      i1 := 0;
      i2 := OriginOf(rows[1..], c, k - 1);
      i2 := i2 + 1;
    } else if rows[0].columnId == c {
      i1, i2 := OriginsInOrder(rows[1..], c, j - 1, k - 1);
      i1, i2 := i1 + 1, i2 + 1;
    } else {
      i1, i2 := OriginsInOrder(rows[1..], c, j, k);
      i1, i2 := i1 + 1, i2 + 1;
    }
  }

  /** Every row of column `c` contributes its card. */
  lemma {:induction false} CardOfRow(rows: seq<JoinedRow>, c: int, i: int) returns (k: int)
    requires 0 <= i < |rows| && rows[i].columnId == c
    ensures 0 <= k < |CardsIn(rows, c)| && CardsIn(rows, c)[k] == rows[i].card
  {
    if i == 0 {
      k := 0;
    } else {
      k := CardOfRow(rows[1..], c, i - 1);
      if rows[0].columnId == c {
        k := k + 1;
      }
    }
  }

  /** Every card `get_columns` puts in column `c` is a joined card whose
      membership names `c`, carrying the content of its `cards` row. */
  lemma ColumnCardsAreJoined(s: Store, c: int)
    ensures var cards := CardsIn(SelectJoined(s), c);
      forall k :: 0 <= k < |cards| ==>
        && cards[k].id in Joined(s)
        && s.columnsCards[cards[k].id].columnId == c
        && cards[k] == NewCard(cards[k].id, s.cards[cards[k].id].title, s.cards[cards[k].id].description)
  {
    var rows := SelectJoined(s);
    var cards := CardsIn(rows, c);
    forall k | 0 <= k < |cards|
      ensures cards[k].id in Joined(s) && s.columnsCards[cards[k].id].columnId == c
      ensures cards[k] == NewCard(cards[k].id, s.cards[cards[k].id].title, s.cards[cards[k].id].description)
    {
      var i := OriginOf(rows, c, k);
    }
  }

  /** The cards of column `c` come in ascending position, ties by card id
      (all of them sit in `c` by `ColumnCardsAreJoined`). */
  lemma ColumnCardsInPositionOrder(s: Store, c: int)
    ensures var cards := CardsIn(SelectJoined(s), c);
      forall j, k :: 0 <= j < k < |cards| ==>
        ByColumnPosition(s.columnsCards, cards[j].id, cards[k].id)
  {
    var rows := SelectJoined(s);
    var cards := CardsIn(rows, c);
    forall j, k | 0 <= j < k < |cards|
      ensures ByColumnPosition(s.columnsCards, cards[j].id, cards[k].id)
    {
      var i1, i2 := OriginsInOrder(rows, c, j, k);
    }
  }

  /** No joined card whose membership names `c` is left out of column `c`. */
  lemma ColumnCardsAreComplete(s: Store, c: int, id: int) returns (k: int)
    requires id in Joined(s) && s.columnsCards[id].columnId == c
    ensures var cards := CardsIn(SelectJoined(s), c);
      0 <= k < |cards| && cards[k].id == id
  {
    var rows := SelectJoined(s);
    var i := SelectJoinedIsComplete(s, id);
    k := CardOfRow(rows, c, i);
  }
}

=== FILE: results.dfy ===
/** Failure-carrying values used throughout the model: Rust's `Option` and `Result`. */
module Results {

  /** Rust's `Option<T>`, used for the nullable card description. */
  datatype Option<+T> = None | Some(value: T)

  /** Rust's `Result<T, E>`: the outcome of a storage operation. */
  datatype Result<+T, +E> = Ok(value: T) | Err(error: E)
}

=== FILE: store.dfy ===
/**
 The three tables the board is stored in and the density invariant on card
 positions.

 - `columns`: column id to title.
 - `cards`: card id to its content row.
 - `columnsCards`: the `columns_cards` relation, keyed by card id (every query
   that deletes or updates a membership selects it by card id), giving the
   column the card sits in and its position there.
 */
module Store {
  import opened Results
  import Ordering

  /** A row of the `cards` table, without its key. */
  datatype CardRow = CardRow(title: string, description: Option<string>)

  /** A row of `columns_cards`, without its key `card_id`. */
  datatype Slot = Slot(columnId: int, position: int)

  datatype Store = Store(
    columns: map<int, string>,
    cards: map<int, CardRow>,
    columnsCards: map<int, Slot>
  )

  /** Why a storage call fails. `Panicked` stands for a Rust panic. */
  datatype DbError =
    | DuplicateCard(cardId: int)          // a `cards` row with this id exists
    | DuplicateCardPosition(cardId: int)  // a `columns_cards` row for this card exists
    | RowNotFound(cardId: int)            // `fetch_one` returned no row
    | Panicked(columnId: int)             // `unwrap` on a column that is not loaded
    | NotInColumn(cardId: int, columnId: int) // the card is not where the caller says (checked variants only)

  /** The store a transaction leaves behind: its result when it commits, the
      untouched store when it is rolled back. */
  function Commit(s: Store, r: Result<Store, DbError>): Store {
    match r
    case Ok(s') => s'
    case Err(_) => s
  }

  /** The ids of the cards sitting in column `col`. */
  ghost function Members(m: map<int, Slot>, col: int): set<int> {
    set id | id in m && m[id].columnId == col
  }

  /** The positions occupied in column `col`. */
  ghost function Positions(m: map<int, Slot>, col: int): set<int> {
    set id | id in m && m[id].columnId == col :: m[id].position
  }

  /** The positions of the cards in `ids`. */
  ghost function Image(m: map<int, Slot>, ids: set<int>): set<int>
    requires ids <= m.Keys
  {
    set id | id in ids :: m[id].position
  }

  /** The slots 0 .. n-1. */
  ghost function Interval(n: int): (r: set<int>)
    ensures forall i :: i in r <==> 0 <= i < n
    decreases n
  {
    if n <= 0 then {} else Interval(n - 1) + {n - 1}
  }

  /** No two cards of column `col` share a position. */
  ghost predicate Distinct(m: map<int, Slot>, col: int) {
    forall a, b ::
      (a in m && b in m && m[a].columnId == col && m[b].columnId == col
       && m[a].position == m[b].position) ==> a == b
  }

  /** The central invariant: the cards of column `col` sit at distinct
      positions, each in 0 .. n-1 where n is how many cards the column holds. */
  ghost predicate Dense(m: map<int, Slot>, col: int) {
    && Distinct(m, col)
    && forall id :: id in m && m[id].columnId == col ==> 0 <= m[id].position < |Members(m, col)|
  }

  lemma {:induction false} IntervalSize(n: nat)
    ensures |Interval(n)| == n
  {
    if n > 0 {
      IntervalSize(n - 1);
    }
  }

  lemma {:induction false} SubsetOfSameSize(x: set<int>, y: set<int>)
    requires x <= y && |x| == |y|
    ensures x == y
  {
    if y - x != {} {
      var e := Ordering.Pick(y - x);
      SubsetSize(x, y - {e});
      assert false;
    } else {
      assert forall e :: e in y ==> e in x || e in y - x;
    }
  }

  lemma {:induction false} SubsetSize(x: set<int>, y: set<int>)
    requires x <= y
    ensures |x| <= |y|
    decreases y
  {
    if x != {} {
      var e := Ordering.Pick(x);
      SubsetSize(x - {e}, y - {e});
    }
  }

  /** Distinct positions: a set of cards occupies as many slots as it has cards. */
  lemma {:induction false} ImageSize(m: map<int, Slot>, col: int, ids: set<int>)
    requires Distinct(m, col)
    requires ids <= Members(m, col)
    ensures |Image(m, ids)| == |ids|
    decreases ids
  {
    if ids != {} {
      var a := Ordering.Pick(ids);
      var rest := ids - {a};
      ImageSize(m, col, rest);
      assert Image(m, ids) == Image(m, rest) + {m[a].position};
      assert m[a].position !in Image(m, rest);
    } else {
      assert Image(m, ids) == {};
    }
  }

  /** Density states "exactly the positions 0 .. n-1, no duplicates": every
      slot below the column's size is taken by exactly one card. */
  lemma DenseFillsEverySlot(m: map<int, Slot>, col: int)
    requires Dense(m, col)
    ensures Positions(m, col) == Interval(|Members(m, col)|)
  {
    var ids := Members(m, col);
    ImageSize(m, col, ids);
    IntervalSize(|ids|);
    assert Positions(m, col) == Image(m, ids);
    SubsetOfSameSize(Image(m, ids), Interval(|ids|));
  }

  /** In a dense column every slot below its size holds a card. */
  lemma SlotHolder(m: map<int, Slot>, col: int, v: int) returns (id: int)
    requires Dense(m, col)
    requires 0 <= v < |Members(m, col)|
    ensures id in m && m[id] == Slot(col, v)
  {
    DenseFillsEverySlot(m, col);
    assert v in Positions(m, col);
    id :| id in m && m[id].columnId == col && m[id].position == v;
  }
}

=== FILE: types.dfy ===
/**
 The records the board exchanges with its front end: `Board`, `Column`, `Card`
 and `CardPos`, with the constructors and `add_card` of kanban-03's `main.rs`.
 Rust's `i64` identifiers and positions are modelled as unbounded `int`s.
 */
module Types {
  import opened Results

  /** A card as shown on the board: id, title and optional description. */
  datatype Card = Card(id: int, title: string, description: Option<string>)

  /** A column with the cards it holds, in display order. */
  datatype Column = Column(id: int, title: string, cards: seq<Card>)

  /** The whole board: its columns in display order. */
  datatype Board = Board(columns: seq<Column>)

  /** A slot on the board: a column and a position inside it. */
  datatype CardPos = CardPos(columnId: int, position: int)

  /** `Column::new`: a column with the given id and title and no cards yet. */
  function NewColumn(id: int, title: string): (c: Column)
    ensures c.id == id && c.title == title
    ensures |c.cards| == 0
  {
    Column(id, title, [])
  }

  /** `Column::add_card`: the card goes to the end; nothing else changes. */
  function AddCard(column: Column, card: Card): (c: Column)
    ensures c.id == column.id && c.title == column.title
    ensures |c.cards| == |column.cards| + 1
    ensures c.cards[..|column.cards|] == column.cards
    ensures c.cards[|column.cards|] == card
  {
    column.(cards := column.cards + [card])
  }

  /** `Card::new`: the fields are stored exactly as given. */
  function NewCard(id: int, title: string, description: Option<string>): (c: Card)
    ensures c.id == id && c.title == title && c.description == description
  {
    Card(id, title, description)
  }
}
